=== FILE: README.md ===
# Atomic variable and ATM back end, modelled in Dafny

This project models two Python modules.

- `atomic_variable.py`: a single-slot atomic variable. One value is guarded by a lock, and three operations take that lock within a timeout:
  - `get` returns the value, or `None` when the lock was not acquired.
  - `set` stores a new value, provided an optional predicate admits the new value. It returns 1, or -1.
  - `compare_and_exchange` replaces the value when it matches. A match means equality with `expected` or, when a predicate is given, the predicate holding of the current value. It returns -1 (lock not acquired), 0 (no match) or 1 (exchanged).
- `atomic_bank_account.py`: a bank `Account` whose balance lives in such a variable, and the `AtmBackend` dispatcher.
  - The account number must be ten decimal digits.
  - The starting balance is clamped to `max(balance, 0)`.
  - The balance setter refuses any amount that is not positive.
  - `act_upon` does these steps in order:
    1. Type-checks its argument.
    2. Counts the use in a class-level ledger.
    3. Refuses non-positive amounts.
    4. Applies `deposit` or `withdraw` as `balance += amount` or `balance -= amount`.
    5. Turns every exception into `False`.

Modules:

- `Wrappers` (wrappers.dfy): `Option`, `Result` and `Outcome`.
- `AtomicVariables` (atomic_variable.dfy): the class `AtomicVariable<T>` with a mutable `value` field.
  - Its methods are proved against the step functions `CasStep` and `SetStep`.
  - `CasRun` plays a series of compare-and-exchange calls one after another.
- `AtomicBankAccount` (atomic_bank_account.dfy) holds the rest of the bank model:
  - Account-number matching.
  - The class `Account`, whose balance slot is an `AtomicVariable<int>`.
  - The class `AtmBackend`, whose field `accountNumbersUsedToday` is the ledger.
  - The function `ApplyAction`, which specifies what `act_upon` does to a balance.
- `Scenarios` (scenarios.dfy): client code that replays the unit tests of the atomic variable and a deposit/withdraw session using only the contracts.

How the model treats time, exceptions and Python types:

- **Lock acquisition.** Whether each acquisition succeeds within its timeout is an input, `acquired`. For `act_upon`, `balance += amount` is a getter call followed by a setter call, each with its own input (`readAcquired`, `writeAcquired`).
- **Exceptions.** They become `Result`/`Outcome` values (`Error`). A non-Account argument of `act_upon` is the `OtherArg` case of `Arg`.
- **Return values.** The Python result `False | int` of `act_upon` is `Response` (`Declined | Moved(amount)`).

Three points where the code does something a reader may not expect; the model follows the code:

- **`set` return codes.** The docstring of `set` (atomic_variable.py:88-90) gives -1 only for a lock that was not acquired, but lines 101-105 also return -1 when the predicate rejects the new value. The unit test `test_set_with_predicate` expects -1, and the balance setter relies on it to raise, so the model keeps -1. `SetRejectionLooksLikeTimeout` states the collapse.
- **Account-number digits.** A reader might expect `\d` to mean 0-9 only. The code uses `re.fullmatch(r'\d{10}', …)` on a `str`, and in Python 3 `\d` matches every Unicode decimal digit (category Nd). `IsDecimalDigit` lists the 68 runs of ten digits that Unicode 15.1 defines. That is the Unicode version of Python 3.13, the first version with the `typing.TypeIs` that the module uses; Unicode 15.0 has the same runs. Python 3.14 (Unicode 16.0) adds more runs. `ArabicIndicAccountNumberIsValid` shows that ten Arabic-Indic digits form a valid number.
- **Zero balance.** A balance of exactly zero can be the starting balance but can never be set. As a result, withdrawing the whole balance is refused (`WithdrawAllIsDeclined`).

## Model

| member | source | states |
|---|---|---|
| `AtomicVariables.AtomicVariable.constructor` | atomic_variable.py:42-45 | the slot starts with the given value and default timeout |
| `AtomicVariables.CasStep` | atomic_variable.py:47-72 | the code is one of -1, 0 and 1; it is -1 exactly when the lock was not acquired; it is 1 exactly when the lock was acquired and the current value matches; the value becomes `new_value` on 1 and is unchanged otherwise |
| `AtomicVariables.AtomicVariable.CompareAndExchange` | atomic_variable.py:55-72 | the new value and the returned code are those of `CasStep` on the old value |
| `AtomicVariables.CasPredicateIgnoresExpected` | atomic_variable.py:59-62 | with a predicate, `expected` has no influence, and an acquired call matches exactly when the predicate holds of the current value |
| `AtomicVariables.AtomicVariable.Get` | atomic_variable.py:74-83 | returns `Some(value)` when the lock is acquired and `None` otherwise; it modifies nothing |
| `AtomicVariables.SetStep` | atomic_variable.py:85-107 | the code is -1 or 1; it is 1 exactly when the lock was acquired and the predicate, if any, holds of the new value; the value becomes `new_value` on 1 and is unchanged on -1 |
| `AtomicVariables.AtomicVariable.Set` | atomic_variable.py:92-107 | the new value and the returned code are those of `SetStep` on the old value |
| `AtomicVariables.SetWithoutPredicateStores` | atomic_variable.py:95-103 | an acquired `set` without a predicate stores the value and returns 1 |
| `AtomicVariables.SetRejectionLooksLikeTimeout` | atomic_variable.py:92-107 | for a value the predicate refuses, the acquired and the unacquired `set` give the same state and the same code, -1 |
| `AtomicVariables.CasRun` | atomic_variable_tests.py:42-59 | a series of compare-and-exchange calls yields one code per call, and the code is -1 exactly for the calls that did not acquire the lock |
| `AtomicVariables.CasRunNoMatch` | atomic_variable.py:58-68 | once the slot differs from `expected`, whatever `new_value` is, every later call returns 0 or -1 and the value stays |
| `AtomicVariables.CasRunExactlyOneSuccess` | atomic_variable_tests.py:42-59 | starting from `expected`, with `new_value` different from `expected`, the series has exactly one success when some call acquires the lock and none otherwise; the final value is `new_value` exactly when there was a success |
| `AtomicVariables.CasRunAfterSuccess` | atomic_variable_tests.py:42-59 | in that series, every call after the success that acquires the lock returns 0 |
| `AtomicVariables.CasRunSuccessIsFirstAcquire` | atomic_variable_tests.py:42-59 | in that series, no call before the successful one acquired the lock |
| `Scenarios.RepeatedCompareAndExchange` | atomic_variable_tests.py:42-59 | repeated `compare_and_exchange(0, 1)` from 0 succeeds once if any attempt acquires the lock, and the final value is 1 in that case |
| `AtomicBankAccount.FullMatchDigitsIff` | atomic_bank_account.py:15 | `\d{n}` fully matches a string exactly when it has length n and every character is a decimal digit |
| `AtomicBankAccount.CheckAccountNumber` | atomic_bank_account.py:13-15 | an account number is valid exactly when it consists of ten decimal digits |
| `AtomicBankAccount.AsciiDigitIsDecimal` | atomic_bank_account.py:15 | `0` to `9` are decimal digits for `\d` |
| `AtomicBankAccount.AsciiAccountNumberIsValid` | atomic_bank_account.py:15 | "1234567890" is a valid account number |
| `AtomicBankAccount.ArabicIndicAccountNumberIsValid` | atomic_bank_account.py:15 | ten Arabic-Indic digits are a valid account number |
| `AtomicBankAccount.MalformedAccountNumbersAreInvalid` | atomic_bank_account.py:15 | nine digits, eleven digits, or a letter among ten characters are refused |
| `AtomicBankAccount.InitialBalance` | atomic_bank_account.py:23-26 | the starting balance is `max(balance, 0)`: at least the requested balance, never negative, and equal to either the request or zero |
| `AtomicBankAccount.Account.constructor` | atomic_bank_account.py:17-26 | for a well-formed number (the check of lines 18-21 comes first), a valid account with a fresh balance slot holding `max(balance, 0)` and the account's timeout as its default |
| `AtomicBankAccount.Account.New` | atomic_bank_account.py:17-26 | fails with `ValueError` exactly when the number is malformed; otherwise it returns a fresh, valid account with that number and a starting balance of `max(balance, 0)` |
| `AtomicBankAccount.Account.Balance` | atomic_bank_account.py:32-34 | the balance when the lock is acquired, `None` otherwise |
| `AtomicBankAccount.Account.SetBalance` | atomic_bank_account.py:36-39 | stores `new_amount` exactly when the lock is acquired and `new_amount > 0`; otherwise it raises and leaves the balance unchanged, so zero is refused; a non-negative balance stays non-negative |
| `AtomicBankAccount.Recorded` | atomic_bank_account.py:60-62 | one more use of a number raises its count by one (from 0 when absent), adds only that key, and leaves every other entry unchanged |
| `AtomicBankAccount.RecordAllCounts` | atomic_bank_account.py:69-70 | after a series of dispatches, each number's count has risen by how many times it was dispatched |
| `AtomicBankAccount.AtmBackend.constructor` | atomic_bank_account.py:58 | the ledger starts empty |
| `AtomicBankAccount.AtmBackend.AddAccountNumber` | atomic_bank_account.py:60-62 | the ledger becomes `Recorded(old ledger, number)` (the intended increment) |
| `AtomicBankAccount.AddAccountNumberAsWritten` | atomic_bank_account.py:62 | the code as written looks up `cls.account_numbers`, which the class does not define, so it raises `AttributeError` for every ledger and number |
| `AtomicBankAccount.AddAccountNumberIntended` | atomic_bank_account.py:57-62 | the same update through the attribute's real name succeeds, gives `Recorded(ledger, number)`, and always changes the ledger |
| `AtomicBankAccount.AtmBackend.ActUponAsWritten` | atomic_bank_account.py:64-72 | `act_upon` as written: every Account argument raises `AttributeError` before any ledger entry or balance changes; any other argument gives `False`. `ActUpon` instead records the use and returns a response |
| `AtomicBankAccount.AddDelta` | atomic_bank_account.py:77-86 | `balance += delta` then `response = delta`, with exceptions turned into `False`: the amount moves exactly when both acquisitions succeed and the new balance is positive, and then the response is `delta` and the balance rises by it; otherwise the balance is unchanged |
| `AtomicBankAccount.ApplyAction` | atomic_bank_account.py:74-88 | `amount <= 0` is declined and leaves the balance. A balance change happens exactly when amount > 0, both acquisitions succeed, and the action is a deposit with a positive new balance or a withdrawal with a positive new balance. The result is then `amount` for a deposit and `-amount` for a withdrawal, and the new balance is the old one plus that result. Anything else is declined and leaves the balance unchanged |
| `AtomicBankAccount.ApplyActionKeepsBalanceNonNegative` | atomic_bank_account.py:36-39 | a dispatch never makes a non-negative balance negative, and a dispatch that moves money always leaves a positive balance |
| `AtomicBankAccount.WithdrawAllIsDeclined` | atomic_bank_account.py:80-82 | withdrawing exactly the balance is declined, because zero cannot be set |
| `AtomicBankAccount.AtmBackend.AddToBalance` | atomic_bank_account.py:77-82 | `balance += delta` succeeds exactly when both acquisitions succeed and the sum is positive, and the balance then becomes the sum; a timed-out read raises `TypeError`; otherwise the balance is unchanged |
| `AtomicBankAccount.CheckAccount` | atomic_bank_account.py:90-92 | the check fails exactly for the arguments whose dispatch frame is empty, that is, those through which `act_upon` can reach no balance |
| `AtomicBankAccount.AtmBackend.ActUpon` | atomic_bank_account.py:64-92 | a non-Account argument is declined and changes no ledger entry or balance. For an account, the ledger records the use whatever follows, the account stays valid, and the response and new balance are those of `ApplyAction` |

## Left out

- Threads, the `threading.Lock`/`RLock` objects, reentrancy and real waiting. Whether an acquisition succeeds within its timeout is an input instead. Concurrency itself is not modelled.
- The lost-update race between the getter and the setter inside `account.balance += amount`. The model is sequential, so the read is followed directly by the write.
- Per-call timeouts and the fallback of a falsy timeout to the default. They only influence whether acquisition succeeds, which is an input. The `timeout` argument of `act_upon` is never used by its body.
- `TypedLock` metadata (process id, creation time) and `get_lock`'s check of the lock type. They are diagnostics and library type checks.
- A predicate object that is not callable, or one that is falsy. Python ignores it because of the `expected_predicate and isinstance(..., Callable)` test: `compare_and_exchange` then falls back to `==` (atomic_variable.py:59-62) and `set` stores unconditionally (atomic_variable.py:96-99). The model's predicates are total Dafny functions, always callable and never falsy, so only the `None` case of that fallback is modelled.
- Exceptions raised by a predicate or by `==` inside `compare_and_exchange` or `set` (atomic_variable.py:60, 62, 97). In Python they propagate and, with no `try`/`finally`, skip `lock.release()` (lines 70 and 105), so the slot stays locked and later calls return -1 or `None`. The model's predicates are total Dafny functions and its `==` cannot fail, so this path is not captured.
- An `__eq__` that is not reflexive. The `==` at atomic_variable.py:62 calls the operand's `__eq__`, and in Python `float('nan') == float('nan')` is `False`, so `compare_and_exchange(x, …)` on a NaN slot returns 0. The model's `T(==)` is mathematical equality, so there a call with `expected` equal to the current value always matches. The core stores only `int` balances, where the two agree.
- Python's `None` as a stored value. `AtomicVariable.Get` returns `Option<T>`, so a stored `None` and a timeout stay distinct in the model, while Python returns `None` for both.
- The `out_of_band_atm_use` decorator on `act_upon`. Its wrapper discards the result: it returns `None`, except after a successful withdrawal (a negative result), where the message it formats evaluates `inner * 0.02` on a function object and so raises `TypeError`. `AtmBackend.ActUpon` models the undecorated body.
- The process-wide ledger. `account_numbers_used_today` is a class attribute (atomic_bank_account.py:58), shared by every `AtmBackend` and surviving between instances. The model keeps it as the field `accountNumbersUsedToday` of one `AtmBackend` object, which starts empty, so sharing between back ends is not captured.
- Default arguments: `action='deposit'` of `act_upon` (atomic_bank_account.py:66), `balance=0, timeout=5.5` of `Account.__init__` (atomic_bank_account.py:17) and `value=None, timeout=5.5` of `AtomicVariable.__init__` (atomic_variable.py:42). Every model operation takes these arguments explicitly.
- The unused field `__balance` of `Account`, and the read-only `account_number` property, which is the constant field `accountNumber`.
- `check_atm_use` and the `ATM_Action` type alias. Nothing in the core uses them.
- Day-1/customer_pii_2.py and Day-1/customer_pii_2.rs. They are linked-list demos with random identifiers and printing, and have no algorithmic content.

## Findings

| source | as written | input that shows it | evidently intended | confidence | as-written member | corrected member |
|---|---|---|---|---|---|---|
| atomic_bank_account.py:62 | `add_account_number` reads and writes `cls.account_numbers`, but the class defines only `account_numbers_used_today` (line 58), so it raises `AttributeError`. `act_upon` calls it outside its `try` (line 70), so the exception escapes | any dispatch to a valid Account, e.g. number "1234567890" | increment `account_numbers_used_today[account_number]`, starting from 0 | high; not executed | `AtomicBankAccount.AddAccountNumberAsWritten` (and `AtomicBankAccount.AtmBackend.ActUponAsWritten` for the escaping exception) | `AtomicBankAccount.AtmBackend.AddAccountNumber` (with `AtomicBankAccount.AddAccountNumberIntended`, `AtomicBankAccount.Recorded` and `AtomicBankAccount.RecordAllCounts`) |

=== FILE: atomic_bank_account.dfy ===
/**
  The bank account of atomic_bank_account.py, whose balance lives in an
  AtomicVariable<int>, and the ATM back end that dispatches deposits and
  withdrawals to accounts and counts, per account number, how often each was
  used. Each lock acquisition the Python code performs is an input saying
  whether it succeeded.
*/
module AtomicBankAccount {
  import opened Wrappers
  import opened AtomicVariables

  /** The exceptions the Python code raises. */
  datatype Error =
    | ValueError          // malformed account number at construction
    | BalanceNotChanged   // the balance setter's `Exception('Couldnt change the balance')`
    | TypeError           // `None + amount` after the balance getter timed out
    | UnsupportedAction   // `Exception(f'Cant use {action} action')`
    | AttributeError      // reading a class attribute that does not exist

  // ---------------------------------------------------------------------------
  // Account numbers: `re.fullmatch(r'\d{10}', account_number)`
  // ---------------------------------------------------------------------------

  /** Whether `x` is one of the ten code points from `zero` to `zero + 9`. */
  predicate InDigitRun(x: int, zero: int)
  {
    zero <= x < zero + 10
  }

  /**
    What `\d` matches in a `str` pattern: any Unicode decimal digit (category
    Nd), not only 0-9. Unicode 15.1, the database of Python 3.13 (the first
    version with the `typing.TypeIs` the module uses), has 68 runs of ten such
    digits, 0 to 9 in order, as 15.0 does; each is named by its first code
    point. Python 3.14 moves to Unicode 16.0, which adds more runs.
  */
  predicate IsDecimalDigit(c: char)
  {
    var x := c as int;
      || InDigitRun(x, 0x30) || InDigitRun(x, 0x660) || InDigitRun(x, 0x6F0) || InDigitRun(x, 0x7C0) || InDigitRun(x, 0x966) || InDigitRun(x, 0x9E6)
      || InDigitRun(x, 0xA66) || InDigitRun(x, 0xAE6) || InDigitRun(x, 0xB66) || InDigitRun(x, 0xBE6) || InDigitRun(x, 0xC66) || InDigitRun(x, 0xCE6)
      || InDigitRun(x, 0xD66) || InDigitRun(x, 0xDE6) || InDigitRun(x, 0xE50) || InDigitRun(x, 0xED0) || InDigitRun(x, 0xF20) || InDigitRun(x, 0x1040)
      || InDigitRun(x, 0x1090) || InDigitRun(x, 0x17E0) || InDigitRun(x, 0x1810) || InDigitRun(x, 0x1946) || InDigitRun(x, 0x19D0) || InDigitRun(x, 0x1A80)
      || InDigitRun(x, 0x1A90) || InDigitRun(x, 0x1B50) || InDigitRun(x, 0x1BB0) || InDigitRun(x, 0x1C40) || InDigitRun(x, 0x1C50) || InDigitRun(x, 0xA620)
      || InDigitRun(x, 0xA8D0) || InDigitRun(x, 0xA900) || InDigitRun(x, 0xA9D0) || InDigitRun(x, 0xA9F0) || InDigitRun(x, 0xAA50) || InDigitRun(x, 0xABF0)
      || InDigitRun(x, 0xFF10) || InDigitRun(x, 0x104A0) || InDigitRun(x, 0x10D30) || InDigitRun(x, 0x11066) || InDigitRun(x, 0x110F0) || InDigitRun(x, 0x11136)
      || InDigitRun(x, 0x111D0) || InDigitRun(x, 0x112F0) || InDigitRun(x, 0x11450) || InDigitRun(x, 0x114D0) || InDigitRun(x, 0x11650) || InDigitRun(x, 0x116C0)
      || InDigitRun(x, 0x11730) || InDigitRun(x, 0x118E0) || InDigitRun(x, 0x11950) || InDigitRun(x, 0x11C50) || InDigitRun(x, 0x11D50) || InDigitRun(x, 0x11DA0)
      || InDigitRun(x, 0x11F50) || InDigitRun(x, 0x16A60) || InDigitRun(x, 0x16AC0) || InDigitRun(x, 0x16B50) || InDigitRun(x, 0x1D7CE) || InDigitRun(x, 0x1D7D8)
      || InDigitRun(x, 0x1D7E2) || InDigitRun(x, 0x1D7EC) || InDigitRun(x, 0x1D7F6) || InDigitRun(x, 0x1E140) || InDigitRun(x, 0x1E2F0) || InDigitRun(x, 0x1E4F0)
      || InDigitRun(x, 0x1E950) || InDigitRun(x, 0x1FBF0)
  }

  /**
    Whether `\d{n}` matches the whole of `s`: the regular expression consumes
    one digit per repetition and must then be at the end of the input.
  */
  predicate FullMatchDigits(s: string, n: nat)
    decreases n
  {
    if n == 0 then s == []
    else s != [] && IsDecimalDigit(s[0]) && FullMatchDigits(s[1..], n - 1)
  }


  /** `\d{n}` matches the whole string exactly when it is n decimal digits. */
  lemma {:induction false} FullMatchDigitsIff(s: string, n: nat)
    ensures FullMatchDigits(s, n) <==> |s| == n && forall i :: 0 <= i < |s| ==> IsDecimalDigit(s[i])
    decreases n
  {
    if n > 0 && s != [] {
      FullMatchDigitsIff(s[1..], n - 1);
      if IsDecimalDigit(s[0]) && (forall i :: 0 <= i < |s[1..]| ==> IsDecimalDigit(s[1..][i])) {
        forall i | 0 <= i < |s| ensures IsDecimalDigit(s[i]) {
          if i > 0 { assert s[i] == s[1..][i - 1]; }
        }
      }
    }
  }

  /**
    `Account.check_account_number`: an account number is valid exactly when it
    is ten decimal digits.
  */
  predicate CheckAccountNumber(accountNumber: string)
    ensures CheckAccountNumber(accountNumber) <==>
              |accountNumber| == 10 && forall i :: 0 <= i < 10 ==> IsDecimalDigit(accountNumber[i])
  {
    FullMatchDigitsIff(accountNumber, 10);
    FullMatchDigits(accountNumber, 10)
  }

  /** Every ASCII digit is a decimal digit. */
  lemma AsciiDigitIsDecimal(c: char)
    requires '0' <= c <= '9'
    ensures IsDecimalDigit(c)
  {
  }

  /** Ten ASCII digits form a valid account number. */
  lemma AsciiAccountNumberIsValid()
    ensures CheckAccountNumber("1234567890")
  {
    var ascii := "1234567890";
    forall i | 0 <= i < 10 ensures IsDecimalDigit(ascii[i]) {
      AsciiDigitIsDecimal(ascii[i]);
    }
  }

  /** Ten Arabic-Indic digits form a valid account number too. */
  lemma ArabicIndicAccountNumberIsValid()
    ensures CheckAccountNumber("\U{0661}\U{0662}\U{0663}\U{0664}\U{0665}\U{0666}\U{0667}\U{0668}\U{0669}\U{0660}")
  {
    var arabic := "\U{0661}\U{0662}\U{0663}\U{0664}\U{0665}\U{0666}\U{0667}\U{0668}\U{0669}\U{0660}";
    forall i | 0 <= i < 10 ensures IsDecimalDigit(arabic[i]) {
      assert '\U{0660}' <= arabic[i] <= '\U{0669}';
    }
  }

  /** Nine or eleven digits, or a letter among ten characters, are refused. */
  lemma MalformedAccountNumbersAreInvalid()
    ensures !CheckAccountNumber("123456789")
    ensures !CheckAccountNumber("12345678901")
    ensures !CheckAccountNumber("12345a7890")
  {
    var letter := "12345a7890";
    assert !IsDecimalDigit(letter[5]);
  }

  // ---------------------------------------------------------------------------
  // Account
  // ---------------------------------------------------------------------------

  /** The balance an account starts with: `max(balance, 0)`. */
  function InitialBalance(balance: int): (b: nat)
    ensures b >= balance
    ensures b == balance || b == 0
  {
    if balance > 0 then balance else 0
  }

  class Account {
    const accountNumber: string
    /** The account's lock timeout, handed to its balance slot as the default. */
    const timeout: real
    /** The balance slot (`atomic_balance`). */
    const atomicBalance: AtomicVariable<int>

    /** Every account was built with a valid number, and its balance is never negative. */
    ghost predicate Valid()
      reads atomicBalance
    {
      CheckAccountNumber(accountNumber) && atomicBalance.value >= 0
    }

    /** Allocation of an account whose number has been checked. */
    constructor (accountNumber: string, balance: int, timeout: real)
      requires CheckAccountNumber(accountNumber)
      ensures Valid()
      ensures this.accountNumber == accountNumber && this.timeout == timeout
      ensures fresh(atomicBalance)
      ensures atomicBalance.value == InitialBalance(balance) && atomicBalance.timeout == timeout
    {
      this.accountNumber := accountNumber;
      this.timeout := timeout;
      this.atomicBalance := new AtomicVariable(InitialBalance(balance), timeout);
    }

    /**
      `Account(account_number, balance, timeout)`: raises ValueError on a
      malformed number, otherwise an account whose balance is `max(balance, 0)`.
    */
    static method New(accountNumber: string, balance: int, timeout: real) returns (r: Result<Account, Error>)
      ensures r.Failure? <==> !CheckAccountNumber(accountNumber)
      ensures r.Failure? ==> r.error == ValueError
      ensures r.Success? ==> fresh(r.value) && fresh(r.value.atomicBalance) && r.value.Valid()
      ensures r.Success? ==> r.value.accountNumber == accountNumber && r.value.timeout == timeout
      ensures r.Success? ==> r.value.atomicBalance.value == InitialBalance(balance)
    {
      if CheckAccountNumber(accountNumber) {
        var account := new Account(accountNumber, balance, timeout);
        r := Success(account);
      } else {
        r := Failure(ValueError);
      }
    }

    /** The `balance` getter: the balance, or `None` when the lock was not acquired. */
    method Balance(acquired: bool) returns (r: Option<int>)
      ensures acquired ==> r == Some(atomicBalance.value)
      ensures !acquired ==> r == None
    {
      r := atomicBalance.Get(acquired);
    }

    /**
      The `balance` setter: stores `newAmount` when the lock is acquired and
      `newAmount > 0`; otherwise raises and leaves the balance as it was.
    */
    method SetBalance(newAmount: int, acquired: bool) returns (r: Outcome<Error>)
      requires Valid()
      modifies atomicBalance
      ensures Valid()
      ensures r.Pass? <==> acquired && newAmount > 0
      ensures r.Fail? ==> r.error == BalanceNotChanged
      ensures atomicBalance.value == if r.Pass? then newAmount else old(atomicBalance.value)
    {
      var res := atomicBalance.Set(newAmount, Some(x => x > 0), acquired);
      if res == Timeout {
        r := Fail(BalanceNotChanged);
      } else {
        r := Pass;
      }
    }
  }

  // ---------------------------------------------------------------------------
  // ATM back end
  // ---------------------------------------------------------------------------

  /** The `account` argument of `act_upon`: an Account instance, or any other object. */
  datatype Arg = AccountArg(account: Account) | OtherArg

  /**
    `AtmBackend.check_account`: whether the argument is an Account instance.
    It fails exactly for the arguments through which `act_upon` can reach no
    balance at all.
  */
  predicate CheckAccount(arg: Arg)
    ensures !CheckAccount(arg) <==> Footprint(arg) == {}
  {
    arg.AccountArg?
  }

  /** The objects `act_upon` may change besides the back end: the balance slot of an account argument. */
  function Footprint(arg: Arg): set<object>
  {
    if arg.AccountArg? then {arg.account.atomicBalance} else {}
  }

  /** `ledger.get(accountNumber, 0)`. */
  function UsedCount(ledger: map<string, nat>, accountNumber: string): nat
  {
    if accountNumber in ledger then ledger[accountNumber] else 0
  }

  /**
    The usage ledger after one more use of `accountNumber`: its count rises by
    one (from zero when absent) and every other entry stays as it was.
  */
  function Recorded(ledger: map<string, nat>, accountNumber: string): (l: map<string, nat>)
    ensures l.Keys == ledger.Keys + {accountNumber}
    ensures UsedCount(l, accountNumber) == UsedCount(ledger, accountNumber) + 1
    ensures forall k :: k != accountNumber ==> UsedCount(l, k) == UsedCount(ledger, k)
    ensures forall k :: k in ledger && k != accountNumber ==> l[k] == ledger[k]
  {
    ledger[accountNumber := UsedCount(ledger, accountNumber) + 1]
  }

  /** The ledger after uses of the account numbers in `uses`, in order. */
  function RecordAll(ledger: map<string, nat>, uses: seq<string>): map<string, nat>
    decreases |uses|
  {
    if uses == [] then ledger else RecordAll(Recorded(ledger, uses[0]), uses[1..])
  }

  /** After a series of uses, each number's count has risen by how often it was used. */
  lemma {:induction false} RecordAllCounts(ledger: map<string, nat>, uses: seq<string>, accountNumber: string)
    ensures UsedCount(RecordAll(ledger, uses), accountNumber) == UsedCount(ledger, accountNumber) + multiset(uses)[accountNumber]
    decreases |uses|
  {
    if uses != [] {
      RecordAllCounts(Recorded(ledger, uses[0]), uses[1..], accountNumber);
      assert uses == [uses[0]] + uses[1..];
      assert multiset(uses) == multiset{uses[0]} + multiset(uses[1..]);
    }
  }

  /** `act_upon`'s result: `False`, or the signed amount moved (positive for a deposit). */
  datatype Response = Declined | Moved(amount: int)

  /** A response with the balance it leaves behind. */
  datatype Dispatch = Dispatch(response: Response, balance: int)

  /**
    What `act_upon` does to the balance of an account argument and returns,
    past its type check: `amount` must be positive, the action `deposit` or
    `withdraw`, and `balance += delta` is one getter call (`readAcquired`) and
    one setter call (`writeAcquired`); any exception becomes `False`.
  */
  function ApplyAction(balance: int, amount: int, action: string, readAcquired: bool, writeAcquired: bool): (d: Dispatch)
    ensures amount <= 0 ==> d == Dispatch(Declined, balance)
    ensures d.response.Declined? ==> d.balance == balance
    ensures d.response.Moved? ==> d.balance == balance + d.response.amount && d.balance > 0
    ensures d.response.Moved? <==>
              && amount > 0 && readAcquired && writeAcquired
              && ((action == "deposit" && balance + amount > 0) || (action == "withdraw" && balance - amount > 0))
    ensures d.response.Moved? && action == "deposit" ==> d.response.amount == amount
    ensures d.response.Moved? && action != "deposit" ==> d.response.amount == -amount
  {
    if amount <= 0 then Dispatch(Declined, balance)
    else if action == "deposit" then AddDelta(balance, amount, readAcquired, writeAcquired)
    else if action == "withdraw" then AddDelta(balance, -1 * amount, readAcquired, writeAcquired)
    else Dispatch(Declined, balance)
  }

  /**
    `account.balance += delta` followed by `response = delta`, with any
    exception turned into `False`: the amount moves exactly when both lock
    acquisitions succeed and the setter accepts the new balance.
  */
  function AddDelta(balance: int, delta: int, readAcquired: bool, writeAcquired: bool): (d: Dispatch)
    ensures d.response.Moved? <==> readAcquired && writeAcquired && balance + delta > 0
    ensures d.response.Moved? ==> d == Dispatch(Moved(delta), balance + delta)
    ensures d.response.Declined? ==> d.balance == balance
  {
    if !readAcquired then Dispatch(Declined, balance)
    else if writeAcquired && balance + delta > 0 then Dispatch(Moved(delta), balance + delta)
    else Dispatch(Declined, balance)
  }

  /** A dispatch never makes a non-negative balance negative, and never leaves it at zero after a change. */
  lemma ApplyActionKeepsBalanceNonNegative(balance: int, amount: int, action: string, readAcquired: bool, writeAcquired: bool)
    requires balance >= 0
    ensures ApplyAction(balance, amount, action, readAcquired, writeAcquired).balance >= 0
    ensures ApplyAction(balance, amount, action, readAcquired, writeAcquired).response.Moved? ==>
              ApplyAction(balance, amount, action, readAcquired, writeAcquired).balance > 0
  {
  }

  /** Withdrawing the whole balance is refused: the setter forbids a zero balance. */
  lemma WithdrawAllIsDeclined(balance: int)
    ensures ApplyAction(balance, balance, "withdraw", true, true) == Dispatch(Declined, balance)
  {
  }

  /** The name of AtmBackend's one class attribute, the usage ledger. */
  const LedgerAttribute: string := "account_numbers_used_today"

  /** `cls.<name>` on AtmBackend: the ledger under its own name, AttributeError under a name the class does not define, such as `account_numbers`. */
  function ClassAttribute(name: string, ledger: map<string, nat>): Result<map<string, nat>, Error>
  {
    if name == LedgerAttribute then Success(ledger) else Failure(AttributeError)
  }

  /**
    `cls.<name>[n] = cls.<name>.get(n, 0) + 1`: the attribute is looked up
    first, and only a ledger that exists gets one more use of `n`.
  */
  function RecordUnder(name: string, ledger: map<string, nat>, accountNumber: string): Result<map<string, nat>, Error>
  {
    match ClassAttribute(name, ledger)
    case Success(d) => Success(Recorded(d, accountNumber))
    case Failure(e) => Failure(e)
  }

  /**
    `add_account_number` as written: it goes through the name
    `account_numbers`, which AtmBackend does not define, so it raises
    AttributeError for every account number and ledger.
  */
  function AddAccountNumberAsWritten(ledger: map<string, nat>, accountNumber: string): (r: Result<map<string, nat>, Error>)
    ensures r == Failure(AttributeError)
  {
    RecordUnder("account_numbers", ledger, accountNumber)
  }

  /**
    Through the attribute's real name the same update succeeds, and it always
    changes the ledger: the intended `add_account_number` is `Recorded`.
  */
  lemma AddAccountNumberIntended(ledger: map<string, nat>, accountNumber: string)
    ensures RecordUnder(LedgerAttribute, ledger, accountNumber) == Success(Recorded(ledger, accountNumber))
    ensures Recorded(ledger, accountNumber) != ledger
  {
    assert UsedCount(Recorded(ledger, accountNumber), accountNumber) != UsedCount(ledger, accountNumber);
  }

  /** The ATM back end; its one piece of state is the class-level usage ledger. */
  class AtmBackend {
    /** `account_numbers_used_today`: per account number, how many dispatches reached it. */
    var accountNumbersUsedToday: map<string, nat>

    constructor ()
      ensures accountNumbersUsedToday == map[]
    {
      accountNumbersUsedToday := map[];
    }

    /** `add_account_number` as intended (see AddAccountNumberIntended): one more use of `accountNumber` in the ledger. */
    method AddAccountNumber(accountNumber: string)
      modifies this
      ensures accountNumbersUsedToday == Recorded(old(accountNumbersUsedToday), accountNumber)
    {
      accountNumbersUsedToday := accountNumbersUsedToday[accountNumber := UsedCount(accountNumbersUsedToday, accountNumber) + 1];
    }

    /**
      `act_upon` as written, without its decorator. For an Account, the call
      of `add_account_number` comes before the `try`, so its AttributeError
      escapes before anything has changed (this method modifies nothing).
      Any other argument gives `False`.
    */
    method ActUponAsWritten(arg: Arg, amount: int, action: string, readAcquired: bool, writeAcquired: bool) returns (r: Result<Response, Error>)
      ensures !arg.AccountArg? ==> r == Success(Declined)
      ensures arg.AccountArg? ==> r == Failure(AttributeError)
    {
      if !CheckAccount(arg) {
        return Success(Declined);
      }
      var recorded := AddAccountNumberAsWritten(accountNumbersUsedToday, arg.account.accountNumber);
      if recorded.Failure? {
        return Failure(recorded.error);
      }
      assert false;
    }

    /**
      `act_upon` without its decorator. A non-Account argument is declined with
      no effect. For an account the use is recorded first, whatever follows;
      then the balance and the response are those of ApplyAction.
    */
    method ActUpon(arg: Arg, amount: int, action: string, readAcquired: bool, writeAcquired: bool) returns (r: Response)
      requires arg.AccountArg? ==> arg.account.Valid()
      modifies this, Footprint(arg)
      ensures !arg.AccountArg? ==> r == Declined && accountNumbersUsedToday == old(accountNumbersUsedToday)
      ensures arg.AccountArg? ==> arg.account.Valid()
      ensures arg.AccountArg? ==>
                accountNumbersUsedToday == Recorded(old(accountNumbersUsedToday), arg.account.accountNumber)
      ensures arg.AccountArg? ==>
                Dispatch(r, arg.account.atomicBalance.value)
                == ApplyAction(old(arg.account.atomicBalance.value), amount, action, readAcquired, writeAcquired)
    {
      r := Declined;
      if CheckAccount(arg) {
        AddAccountNumber(arg.account.accountNumber);
      } else {
        return;
      }
      var account := arg.account;
      if amount > 0 {
        if action == "deposit" {
          var outcome := AddToBalance(account, amount, readAcquired, writeAcquired);
          if outcome.Fail? {
            return Declined;
          }
          r := Moved(amount);
        } else if action == "withdraw" {
          var outcome := AddToBalance(account, -1 * amount, readAcquired, writeAcquired);
          if outcome.Fail? {
            return Declined;
          }
          r := Moved(-1 * amount);
        } else {
          var outcome: Outcome<Error> := Fail(UnsupportedAction);
          if outcome.Fail? {
            // the bare `except` turns the raised exception into `False`
            return Declined;
          }
        }
      }
    }

    /**
      The statement `account.balance += delta` (and `-= amount` as `+= -amount`):
      a getter call, then a setter call with the sum; `None + delta` raises
      TypeError when the getter timed out.
    */
    static method AddToBalance(account: Account, delta: int, readAcquired: bool, writeAcquired: bool) returns (r: Outcome<Error>)
      requires account.Valid()
      modifies account.atomicBalance
      ensures account.Valid()
      ensures r.Pass? <==> readAcquired && writeAcquired && old(account.atomicBalance.value) + delta > 0
      ensures !readAcquired ==> r == Fail(TypeError)
      ensures account.atomicBalance.value == if r.Pass? then old(account.atomicBalance.value) + delta else old(account.atomicBalance.value)
    {
      var current := account.Balance(readAcquired);
      if current.None? {
        return Fail(TypeError);
      }
      r := account.SetBalance(current.value + delta, writeAcquired);
    }
  }
}

=== FILE: atomic_variable.dfy ===
/**
  The single-slot atomic variable of atomic_variable.py: one guarded value and
  three operations, each of which first tries to take the slot's lock within a
  timeout. Whether that acquisition succeeds is an input of every operation
  (`acquired`); threads, the lock itself and the waiting are not modelled.
*/
module AtomicVariables {
  import opened Wrappers

  /** Outcome code: the lock could not be acquired (also used by Set for a rejected value). */
  const Timeout: int := -1
  /** Outcome code of CompareAndExchange: the lock was held but the value did not match. */
  const NoMatch: int := 0
  /** Outcome code: the value was replaced. */
  const Updated: int := 1

  /**
    Whether CompareAndExchange finds a match: a supplied predicate is asked
    about the CURRENT value, and `expected` is then ignored; without one the
    current value is compared with `expected`.
  */
  predicate Matches<T(==)>(current: T, expected: T, guard: Option<T -> bool>)
  {
    match guard
    case Some(p) => p(current)
    case None => current == expected
  }

  /**
    Whether Set may store `newValue`: a supplied predicate is asked about the
    NEW value; without one every value is admitted.
  */
  predicate Admits<T>(newValue: T, guard: Option<T -> bool>)
  {
    match guard
    case Some(p) => p(newValue)
    case None => true
  }

  /** The stored value after one operation, with the code that operation returned. */
  datatype Step<T> = Step(value: T, code: int)

  /** What one `compare_and_exchange` call does to the slot and returns. */
  function CasStep<T(==)>(current: T, expected: T, newValue: T, guard: Option<T -> bool>, acquired: bool): (s: Step<T>)
    ensures s.code in {Timeout, NoMatch, Updated}
    ensures s.code == Timeout <==> !acquired
    ensures s.code == Updated <==> acquired && Matches(current, expected, guard)
    ensures s.code != Updated ==> s.value == current
    ensures s.code == Updated ==> s.value == newValue
  {
    if !acquired then Step(current, Timeout)
    else if Matches(current, expected, guard) then Step(newValue, Updated)
    else Step(current, NoMatch)
  }

  /** What one `set` call does to the slot and returns. */
  function SetStep<T>(current: T, newValue: T, guard: Option<T -> bool>, acquired: bool): (s: Step<T>)
    ensures s.code in {Timeout, Updated}
    ensures s.code == Updated <==> acquired && Admits(newValue, guard)
    ensures s.code == Timeout ==> s.value == current
    ensures s.code == Updated ==> s.value == newValue
  {
    if acquired && Admits(newValue, guard) then Step(newValue, Updated)
    else Step(current, Timeout)
  }

  class AtomicVariable<T(==)> {
    /** The guarded value (the lock handle's `value`). */
    var value: T
    /** The default lock timeout, used when a call gives none. */
    const timeout: real

    constructor (value: T, timeout: real)
      ensures this.value == value && this.timeout == timeout
    {
      this.value := value;
      this.timeout := timeout;
    }

    /**
      Replaces the value by `newValue` when it matches (see Matches), and
      reports -1 when the lock was not acquired, 0 on no match, 1 on exchange.
    */
    method CompareAndExchange(expected: T, newValue: T, guard: Option<T -> bool>, acquired: bool) returns (res: int)
      modifies this
      ensures Step(value, res) == CasStep(old(value), expected, newValue, guard, acquired)
    {
      res := Timeout;
      if acquired {
        var result: bool;
        if guard.Some? {
          result := guard.value(value);
        } else {
          result := value == expected;
        }
        if result {
          value := newValue;
          res := Updated;
        } else {
          res := NoMatch;
        }
      }
    }

    /** The current value when the lock is acquired, `None` otherwise; never changes the slot. */
    method Get(acquired: bool) returns (res: Option<T>)
      ensures acquired ==> res == Some(value)
      ensures !acquired ==> res == None
    {
      res := None;
      if acquired {
        res := Some(value);
      }
    }

    /**
      Stores `newValue` when the lock is acquired and the predicate, if any,
      admits it; returns 1 then and -1 otherwise.
    */
    method Set(newValue: T, guard: Option<T -> bool>, acquired: bool) returns (res: int)
      modifies this
      ensures Step(value, res) == SetStep(old(value), newValue, guard, acquired)
    {
      res := Timeout;
      if acquired {
        var result: bool;
        if guard.Some? {
          result := guard.value(newValue);
        } else {
          result := true;
        }
        if result {
          value := newValue;
          res := Updated;
        }
      }
    }
  }

  /**
    With a predicate, `expected` plays no part: two calls that differ only in
    `expected` behave alike, and the match is the predicate on the current value.
  */
  lemma CasPredicateIgnoresExpected<T>(current: T, expected: T, otherExpected: T, newValue: T, p: T -> bool, acquired: bool)
    ensures CasStep(current, expected, newValue, Some(p), acquired) == CasStep(current, otherExpected, newValue, Some(p), acquired)
    ensures acquired ==> (CasStep(current, expected, newValue, Some(p), acquired).code == Updated <==> p(current))
  {
  }

  /** Without a predicate, an acquired set always stores the new value and returns 1. */
  lemma SetWithoutPredicateStores<T>(current: T, newValue: T)
    ensures SetStep(current, newValue, None, true) == Step(newValue, Updated)
  {
  }

  /**
    Set's caller cannot tell a rejected value from a lock timeout: for a value
    the predicate refuses, the acquired and the unacquired call end in the same
    state with the same code.
  */
  lemma SetRejectionLooksLikeTimeout<T>(current: T, newValue: T, p: T -> bool)
    requires !p(newValue)
    ensures SetStep(current, newValue, Some(p), true) == SetStep(current, newValue, Some(p), false)
    ensures SetStep(current, newValue, Some(p), true) == Step(current, Timeout)
  {
  }

  /**
    A series of `compare_and_exchange(expected, newValue)` calls without a
    predicate, one after another on the same slot; `attempts[i]` says whether
    call i acquired the lock. Gives the final value and every call's code.
  */
  function CasRun<T(==)>(current: T, expected: T, newValue: T, attempts: seq<bool>): (r: (T, seq<int>))
    ensures |r.1| == |attempts|
    ensures forall i :: 0 <= i < |attempts| ==> (r.1[i] == Timeout <==> !attempts[i])
    decreases |attempts|
  {
    if attempts == [] then (current, [])
    else
      var s := CasStep(current, expected, newValue, None, attempts[0]);
      var rest := CasRun(s.value, expected, newValue, attempts[1..]);
      (rest.0, [s.code] + rest.1)
  }

  /** Once the slot holds something other than `expected`, no call of the series matches. */
  lemma {:induction false} CasRunNoMatch<T>(current: T, expected: T, newValue: T, attempts: seq<bool>)
    requires current != expected
    ensures CasRun(current, expected, newValue, attempts).0 == current
    ensures multiset(CasRun(current, expected, newValue, attempts).1)[Updated] == 0
    ensures forall i :: 0 <= i < |attempts| ==>
              CasRun(current, expected, newValue, attempts).1[i] == (if attempts[i] then NoMatch else Timeout)
    decreases |attempts|
  {
    if attempts != [] {
      CasRunNoMatch(current, expected, newValue, attempts[1..]);
      var codes := CasRun(current, expected, newValue, attempts).1;
      var rest := CasRun(current, expected, newValue, attempts[1..]).1;
      assert codes == [codes[0]] + rest;
      assert multiset(codes) == multiset{codes[0]} + multiset(rest);
    }
  }

  /**
    The sequential form of the concurrent test: starting from `start`, a series
    of `compare_and_exchange(start, newValue)` calls has exactly one success
    when some call acquires the lock (none otherwise), and the final value is
    `newValue` exactly in the first case.
  */
  lemma {:induction false} CasRunExactlyOneSuccess<T>(start: T, newValue: T, attempts: seq<bool>)
    requires start != newValue
    ensures var (final, codes) := CasRun(start, start, newValue, attempts);
            && multiset(codes)[Updated] == (if true in attempts then 1 else 0)
            && final == (if true in attempts then newValue else start)
    decreases |attempts|
  {
    if attempts != [] {
      var codes := CasRun(start, start, newValue, attempts).1;
      var tail := attempts[1..];
      var rest := CasRun(if attempts[0] then newValue else start, start, newValue, tail).1;
      assert attempts == [attempts[0]] + tail;
      assert codes == [codes[0]] + rest;
      assert multiset(codes) == multiset{codes[0]} + multiset(rest);
      if attempts[0] {
        CasRunNoMatch(newValue, start, newValue, tail);
      } else {
        CasRunExactlyOneSuccess(start, newValue, tail);
        assert (true in attempts) == (true in tail);
      }
    }
  }

  /** In the same series, every call after the success that acquires the lock returns 0. */
  lemma {:induction false} CasRunAfterSuccess<T>(start: T, newValue: T, attempts: seq<bool>)
    requires start != newValue
    ensures var codes := CasRun(start, start, newValue, attempts).1;
            forall i, j :: 0 <= i < j < |codes| && codes[i] == Updated ==>
              codes[j] == (if attempts[j] then NoMatch else Timeout)
    decreases |attempts|
  {
    if attempts != [] {
      var codes := CasRun(start, start, newValue, attempts).1;
      var tail := attempts[1..];
      var rest := CasRun(if attempts[0] then newValue else start, start, newValue, tail).1;
      assert codes == [codes[0]] + rest;
      if attempts[0] {
        CasRunNoMatch(newValue, start, newValue, tail);
        forall i, j | 0 <= i < j < |codes| && codes[i] == Updated
          ensures codes[j] == (if attempts[j] then NoMatch else Timeout)
        {
          assert codes[j] == rest[j - 1];
        }
      } else {
        assert rest == CasRun(start, start, newValue, tail).1;
        CasRunAfterSuccess(start, newValue, tail);
        forall i, j | 0 <= i < j < |codes| && codes[i] == Updated
          ensures codes[j] == (if attempts[j] then NoMatch else Timeout)
        {
          assert codes[i] == rest[i - 1];
          assert codes[j] == rest[j - 1];
        }
      }
    }
  }

  /**
    In the same series, the call that succeeds is the first one that acquires
    the lock: no call before it did.
  */
  lemma {:induction false} CasRunSuccessIsFirstAcquire<T>(start: T, newValue: T, attempts: seq<bool>)
    requires start != newValue
    ensures var codes := CasRun(start, start, newValue, attempts).1;
            forall i, k :: 0 <= k < i < |codes| && codes[i] == Updated ==> !attempts[k]
    decreases |attempts|
  {
    if attempts != [] {
      var codes := CasRun(start, start, newValue, attempts).1;
      var tail := attempts[1..];
      var rest := CasRun(if attempts[0] then newValue else start, start, newValue, tail).1;
      assert codes == [codes[0]] + rest;
      if attempts[0] {
        CasRunNoMatch(newValue, start, newValue, tail);
        forall i | 0 < i < |codes| ensures codes[i] != Updated {
          assert codes[i] == rest[i - 1];
        }
      } else {
        assert rest == CasRun(start, start, newValue, tail).1;
        CasRunSuccessIsFirstAcquire(start, newValue, tail);
        forall i, k | 0 <= k < i < |codes| && codes[i] == Updated
          ensures !attempts[k]
        {
          assert codes[i] == rest[i - 1];
          if k > 0 {
            assert attempts[k] == tail[k - 1];
          }
        }
      }
    }
  }
}

=== FILE: scenarios.dfy ===
/**
  Client code: the unit tests of the atomic variable and a few dispatcher
  scenarios, replayed against the contracts alone. Most calls acquire every
  lock; one call in CompareAndExchangeOutcomes and the loop in
  RepeatedCompareAndExchange also cover a missed acquisition.
*/
module Scenarios {
  import opened Wrappers
  import opened AtomicVariables
  import opened AtomicBankAccount

  /** A get after a set returns the value set. */
  method GetAfterSet()
  {
    var v := new AtomicVariable(10, 5.5);
    var got := v.Get(true);
    assert got == Some(10);
    var code := v.Set(20, None, true);
    assert code == Updated;
    got := v.Get(true);
    assert got == Some(20);
  }

  /** Exchange on a match, no exchange on a mismatch, with and without a predicate. */
  method CompareAndExchangeOutcomes()
  {
    var v := new AtomicVariable(10, 5.5);
    var code := v.CompareAndExchange(10, 30, None, true);
    assert code == Updated && v.value == 30;

    v := new AtomicVariable(10, 5.5);
    code := v.CompareAndExchange(5, 30, None, true);
    assert code == NoMatch && v.value == 10;

    v := new AtomicVariable(10, 5.5);
    code := v.CompareAndExchange(10, 30, Some(x => x > 5), true);
    assert code == Updated && v.value == 30;

    v := new AtomicVariable(10, 5.5);
    code := v.CompareAndExchange(10, 30, Some(x => x > 35), true);
    assert code == NoMatch && v.value == 10;

    code := v.CompareAndExchange(10, 30, None, false);
    assert code == Timeout && v.value == 10;
  }

  /** A set whose predicate refuses the new value returns -1 and keeps the old one. */
  method SetWithPredicate()
  {
    var v := new AtomicVariable(10, 5.5);
    var code := v.Set(20, Some(x => x == 10), true);
    assert code == Timeout && v.value == 10;
    code := v.Set(30, Some(x => x > 10), true);
    assert code == Updated && v.value == 30;
  }

  /**
    The concurrent test, attempts taken one after another on a slot holding 0:
    each attempt is `compare_and_exchange(0, 1)` and `attempts[i]` says whether
    it acquired the lock. Exactly one succeeds when any acquires the lock.
  */
  method RepeatedCompareAndExchange(v: AtomicVariable<int>, attempts: seq<bool>) returns (successes: nat)
    requires v.value == 0
    modifies v
    ensures successes == (if true in attempts then 1 else 0)
    ensures v.value == successes
  {
    successes := 0;
    var i := 0;
    while i < |attempts|
      invariant 0 <= i <= |attempts|
      invariant successes == (if true in attempts[..i] then 1 else 0)
      invariant v.value == successes
    {
      var code := v.CompareAndExchange(0, 1, None, attempts[i]);
      if code == Updated {
        successes := successes + 1;
      }
      assert attempts[..i + 1] == attempts[..i] + [attempts[i]];
      i := i + 1;
    }
    assert attempts[..i] == attempts;
  }

  /** Deposit 100 on a fresh account, withdraw 50, then the refused requests. */
  method DispatchScenario()
  {
    var created := Account.New("1234567890", 0, 5.5);
    AsciiAccountNumberIsValid();
    assert created.Success?;
    var account := created.value;
    assert account.atomicBalance.value == 0;
    var atm := new AtmBackend();

    var r := atm.ActUpon(AccountArg(account), 100, "deposit", true, true);
    assert r == Moved(100) && account.atomicBalance.value == 100;
    r := atm.ActUpon(AccountArg(account), 50, "withdraw", true, true);
    assert r == Moved(-50) && account.atomicBalance.value == 50;
    r := atm.ActUpon(AccountArg(account), -5, "deposit", true, true);
    assert r == Declined && account.atomicBalance.value == 50;
    r := atm.ActUpon(AccountArg(account), 10, "transfer", true, true);
    assert r == Declined && account.atomicBalance.value == 50;
    r := atm.ActUpon(AccountArg(account), 50, "withdraw", true, true);
    assert r == Declined && account.atomicBalance.value == 50;
    r := atm.ActUpon(OtherArg, 10, "deposit", true, true);
    assert r == Declined;
    assert UsedCount(atm.accountNumbersUsedToday, "1234567890") == 5;
  }
}

=== FILE: wrappers.dfy ===
/** Wrappers shared by the model's modules. */
module Wrappers {

  /** A value that may be missing (Python's `None`). */
  datatype Option<+T> = None | Some(value: T)

  /** A value, or the exception raised instead of producing it. */
  datatype Result<+R, +E> = Success(value: R) | Failure(error: E)

  /** Success without a value, or the exception raised. */
  datatype Outcome<+E> = Pass | Fail(error: E)
}
